=== FILE: README.md ===
# Evaluation-request validation of the cryptic-crossword green agent

The green agent administers a benchmark of cryptic-crossword clues to a
remote solver agent. Before any clue is posed, `Agent.validate_request`
decides whether an incoming evaluation request is acceptable and, if it is,
fixes the ordered list of corpus positions (`task_indices`) of the clues to
pose. This project models that decision procedure and proves what it
guarantees.

The checks run in a fixed order; the first that fails decides the outcome:

1. the participants must include the role `cryptic_solver`;
2. every required config key must be present (there are none);
3. `dataset` (default `"cryptonite"`) must be the string `"cryptonite"`;
4. `split` (default `"validation"`) must be a `str` that Python's `in`
   finds inside `"train|val|test"` — a substring test, so `""`, `"val"` and
   `"|val|"` pass, and `"validation"`, the default, does not;
5. the corpus for the split is loaded; `num_tasks` (default `"10"`) must
   coerce with `int()` to an `n` with `0 < n < len(corpus)`;
6. `seed` (default `"42"`) must coerce with `int()`.

The corpus is then shuffled for that seed. On success the selection is the
first `num_tasks` entries of the shuffle, and the reply is `(True, "ok")`.

## Layout

| file | module | contents |
|---|---|---|
| `wrappers.dfy` | `Wrappers` | `Option` |
| `pystr.dfy` | `PyStr` | Python's `in` between strings; the whitespace `int()` strips |
| `pyint.dfy` | `PyInt` | `int()` on a `str`, `str()` of an `int`, and a scanner for `int()` |
| `request.dfy` | `Request` | the request, its JSON config values, `dict.get`, `int()` on any value |
| `selection.dfy` | `Selection` | Python's `s[:n]` and index permutations |
| `validator.dfy` | `Validator` | `validate_request` in three stages, reasons, reply texts |
| `properties.dfy` | `ValidatorProperties` | the guarantees, as lemmas over all inputs |

`ValidateRequest` returns a `Validation`: a `Verdict` and the new agent state.
The verdict is `Accept(taskIndices)`, `Reject(reason)` (the `(False, msg)`
reply; `Message` gives the text) or `Raise(error)`, for an exception that
escapes the method. The agent state holds the two attributes the method
assigns: `self.dataset` and `self.task_indices`.

The corpus loader and `get_shuffled_idx` are collaborators outside the
model. They are parameters: `load: string -> Option<nat>` gives the corpus
length for a split, or `None` when loading raises. `shuffle: (Dataset, int)
-> Option<seq<nat>>` is any deterministic function of the loaded corpus and
the seed, with `None` when the shuffle raises. Properties about the
selection's contents assume every completed shuffle is a permutation of the
corpus positions (`ShufflesArePermutations`).

Where the code does something other than what it evidently intends:

- The split test is Python's substring `in`, while the rejection text at
  src/agent.py:74 ("Only train, val, and test splits available") names
  exactly three splits. The empty string, `"|"`, `"al"` and `"|val|"` also
  pass. The default `"validation"` fails, so a request without a `split`
  key is always rejected. The model follows the code.
- The return type `tuple[bool, str]` at src/agent.py:57 says a bad request
  gets a `(False, reason)` reply. A `split` that is not a `str` (a number,
  `null`, a list), however, makes the `in` test raise `TypeError`, and no
  `try` block covers it. The model returns `Raise(TypeError)`.
- The corpus is loaded and assigned to `self.dataset` (src/agent.py:78)
  before `num_tasks` and `seed` are checked and before the shuffle. A
  rejection by either check, or an exception from the shuffle, leaves
  `self.dataset` replaced.


## Model

| member | source | states |
|---|---|---|
| Validator.ValidateRequest | src/agent.py:57-95 | `self.task_indices` is assigned exactly when the request is accepted, with the accepted selection; `self.dataset` changes only to a corpus the loader produced for the requested split; an exception raised before the load (`TypeError` from the split test, a failing load) leaves the agent untouched, while an exception from the shuffle escapes, and a seed rejection returns, with `self.dataset` already the loaded corpus; a `num_tasks` rejection quotes the length of the corpus just loaded and leaves that corpus in `self.dataset` |
| Validator.ValidateSettings | src/agent.py:69-93 | a `dataset` other than the string `"cryptonite"` is rejected whatever split, `num_tasks` and `seed` say, with the agent unchanged; for the checks after the config-key check, the same state guarantees as `ValidateRequest`, including `self.dataset` holding the loaded corpus after a seed rejection or a shuffle error |
| Validator.SelectTasks | src/agent.py:80-93 | after the corpus is loaded only the `num_tasks` and `seed` checks can reject and only the shuffle can raise; the `num_tasks` rejection happens exactly when the value is not an integer strictly between 0 and the corpus length; the seed rejection exactly when `num_tasks` passed and the seed is not an integer; the shuffle error exactly when both passed and the shuffle fails; an accepted selection is the first `num_tasks` entries of the completed shuffle for the coerced seed |
| Validator.Missing | src/agent.py:58 | the listed names are exactly the required names absent from the present ones (Python set difference), never more than were required |
| Validator.Reply | src/agent.py:60-95 | the method returns a pair exactly when it does not raise; the flag is true exactly on acceptance; a rejection carries its reason's text |
| Validator.Message | src/agent.py:58-89 | the `num_tasks` text ends with the corpus length and a closing parenthesis, and the quoted length reads back under `int()` as the corpus length; `ValidatorProperties.MessageIdentifiesCheck` shows the six texts tell their checks apart |
| Request.ToInt | src/agent.py:81 | Python's `int()` on a config value: an int is itself, a bool is 0 or 1, a finite float is truncated toward zero, a str follows the numeral grammar, `None`, lists, dicts and non-finite floats fail; `Request.NumberAndNumeralAgree` relates the number and string forms |
| Request.NumberAndNumeralAgree | src/agent.py:81-87 | a count or seed given as a JSON integer, as a float without fraction, or as its decimal string coerces to the same integer, so `"num_tasks": 2` and `"num_tasks": "2"` are the same request |
| Request.Truncate | src/agent.py:81 | `int()` of a finite float truncates toward zero: the result lies within one of the value, on the side of zero |
| PyStr.Contains | src/agent.py:73 | Python's `needle in hay` on strings: the empty string is always contained; a contained needle is no longer than the haystack; at equal lengths containment is equality |
| PyStr.ContainsIffOccurs | src/agent.py:73 | the scan answers true exactly when some position of the haystack starts a copy of the needle |
| PyStr.Strip | src/agent.py:81 | the whitespace `int()` discards: the result is no longer than the input and neither starts nor ends with whitespace; `PyStr.StripPadded` shows it removes exactly the surrounding whitespace |
| PyStr.StripPadded | src/agent.py:81 | whitespace before and after a string that neither starts nor ends with whitespace is exactly what `strip()` removes |
| PyInt.IntOfString | src/agent.py:81 | `int()` on a `str`: a string of whitespace only (the empty string included) is never a numeral; the value is the numeral grammar of `IntOfStripped` on the stripped text, which `ParseInt`, `PaddingIgnored` and the decimal round trips characterise |
| PyInt.IntOfStripped | src/agent.py:81 | an accepted numeral is nonempty, starts with a digit or with a sign followed by a digit, holds only digits and underscores after that, and ends with a digit; its value is negative only under a minus sign; a nonempty run of plain digits is always accepted, with its decimal value |
| PyInt.ParseInt | src/agent.py:81 | a left-to-right scanner (skip whitespace, optional sign, digits with single underscores between digits) returns exactly what the numeral grammar defines, on every string |
| PyInt.PaddingIgnored | src/agent.py:81 | `int()` gives the same result with or without whitespace around the numeral |
| PyInt.NatToDecimal | src/agent.py:84 | the rendering of the corpus length in the `num_tasks` message is nonempty, all digits, with no leading zero |
| PyInt.DecimalRoundTrip | src/agent.py:81 | `int(str(n)) == n` for every non-negative `n`, so the default `"10"` and any rendered count parse back |
| PyInt.SignedDecimalRoundTrip | src/agent.py:87 | `int(str(i)) == i` for every integer, negative seeds included |
| PyInt.DecimalInjective | src/agent.py:84 | two corpus lengths render the same only if they are equal |
| Selection.Take | src/agent.py:93 | Python's `s[:n]` is a prefix of `s`, of length `n` when `0 <= n <= len(s)`, all of `s` when `n` is larger |
| Selection.TakeMonotone | src/agent.py:93 | taking more entries of the same sequence only extends what was taken |
| Selection.TakeOfPermutation | src/agent.py:92-93 | a prefix of length `k` of a permutation of the corpus positions has `k` distinct positions, all inside the corpus |
| ValidatorProperties.VerdictIgnoresAgentState | src/agent.py:57-95 | the verdict does not depend on what earlier requests left in `self.dataset` or `self.task_indices` |
| ValidatorProperties.MissingSolverRejected | src/agent.py:36-60 | without `cryptic_solver` the outcome is the rejection `Missing roles: {'cryptic_solver'}` with the agent unchanged, whatever the config, corpus or shuffle; a role rejection happens only then |
| ValidatorProperties.ConfigKeysNeverReject | src/agent.py:38-64 | since no config key is required, no request is ever rejected for a missing config key |
| ValidatorProperties.DatasetRejection | src/agent.py:69-76 | the dataset rejection happens exactly when the solver role is present and `dataset` is anything but the string `"cryptonite"` |
| ValidatorProperties.AbsentDatasetMeansCryptonite | src/agent.py:69 | a request without a `dataset` key has the same outcome and the same resulting agent as one naming `"cryptonite"` |
| ValidatorProperties.SplitRejection | src/agent.py:70-74 | past the role and dataset checks, a `str` split is rejected exactly when it occurs nowhere in the choices string (`train`, `val`, `test` joined by vertical bars), and a non-`str` split raises `TypeError` exactly |
| ValidatorProperties.SplitsAccepted | src/agent.py:73 | `"train"`, `"val"`, `"test"`, the empty string and `val` framed by two vertical bars all pass the split test |
| ValidatorProperties.DefaultSplitNotAccepted | src/agent.py:70-73 | the default split `"validation"` fails the split test |
| ValidatorProperties.MissingSplitRejected | src/agent.py:70-74 | past the role and dataset checks, a request without a `split` key is rejected with the split message, and the agent is unchanged |
| ValidatorProperties.EmptyConfigRejected | src/agent.py:69-74 | a request with the solver role and an empty config is rejected by the split check |
| ValidatorProperties.NumTasksRejection | src/agent.py:78-89 | once the corpus of `size` clues is loaded, the `num_tasks` rejection happens exactly when `num_tasks` does not coerce to an integer strictly between 0 and `size`; afterwards only the `num_tasks` or `seed` check can reject and only the shuffle can raise |
| ValidatorProperties.NumTasksOneMessage | src/agent.py:80-84 | a non-integer `num_tasks` and an out-of-range one get the same reply, `num_tasks must be an integer in [1..N)` with `N` the corpus length |
| ValidatorProperties.SeedRejection | src/agent.py:80-89 | the seed rejection happens exactly when every earlier check, the load and `num_tasks` passed and the seed does not coerce to an integer |
| ValidatorProperties.ShuffleFailure | src/agent.py:78-93 | the shuffle's exception escapes exactly when every check and the load passed and the shuffle fails for the coerced seed; `self.dataset` then already holds the loaded corpus and `self.task_indices` keeps its old value |
| ValidatorProperties.AcceptIffAcceptable | src/agent.py:57-95 | a request is accepted exactly when every check (roles, config keys, dataset, split, load, `num_tasks`, seed) passes and the shuffle completes, stated independently of the check order; the reply is then `(True, "ok")`, the selection is the first `num_tasks` entries of the shuffle, and the agent holds the loaded corpus and that selection |
| ValidatorProperties.AcceptedSelection | src/agent.py:92-93 | when every completed shuffle permutes the corpus positions, an accepted selection has exactly `num_tasks` distinct positions, all inside the loaded corpus |
| ValidatorProperties.SelectionPrefixMonotone | src/agent.py:91-93 | two accepted requests that differ only in `num_tasks` (`k <= k'`): the selection for `k` is a prefix of the selection for `k'` |
| ValidatorProperties.DocumentedRequestAccepted | src/server.py:35-47 | the example request of the agent card, `{dataset: "cryptonite", split: "val", num_tasks: 2, seed: 42}`, is accepted with the first two entries of the seed-42 shuffle whenever the `val` corpus has more than two clues and that shuffle completes; otherwise the shuffle's exception escapes |
| ValidatorProperties.MessageIdentifiesCheck | src/agent.py:60-89 | equal reply texts come from the same check, and two `num_tasks` texts are equal only for equal corpus lengths |
| ValidatorProperties.NumTasksMessageInjective | src/agent.py:84 | two `num_tasks` texts are equal exactly when they quote the same corpus length |

## Left out

- `Agent.run` (src/agent.py:98-143): message handling, status updates, artifacts, and the JSON parsing of the request, including URL validation. Participant URLs are plain strings here.
- `Agent.__init__` (src/agent.py:40-54): loads an embedding model and a dictionary from disk.
- `run_single_task` (src/agent.py:145-146): only prints the item; no clue is posed, answered or scored in src/agent.py.
- `load_cryptonite_dataset` and `get_shuffled_idx` (src/agent.py:78, 92): foreign code, replaced by the `load` and `shuffle` parameters. Only the corpus length is modelled. Either may raise (`None`); which inputs make them raise is not modelled.
- src/server.py and src/setup-resize-embeddings.py: server bootstrap, agent-card metadata, model download and resizing.
- Request.ToInt: does not model non-ASCII digits or whitespace in numerals, or the 4300-digit limit of recent Python versions on `int(str)`. Floats are exact reals, and inf and nan are merged into one value that fails.
- Validator.Message: a set of two or more missing names would be rendered in declaration order, while Python uses hash order. Only one role is ever required, so the text is exact.
- The range check on `num_tasks` is a Python `assert`. Running Python with `-O` removes it; the model assumes asserts are enabled.
- The bare `except:` also catches interrupts raised during `int()`; interrupts are not modelled.

=== FILE: properties.dfy ===
/** What `validate_request` guarantees, stated over all requests, all agent
    states, all corpus loaders and all shuffles. */
module ValidatorProperties {
  import opened Wrappers
  import PyStr
  import PyInt
  import opened Request
  import Selection
  import opened Validator

  predicate HasSolver(req: EvalRequest)
  {
    "cryptic_solver" in req.participants
  }

  /** The request passes every check up to and including the split name,
      and the loader returns a corpus of `size` clues for that split. */
  predicate ReachesNumTasks(req: EvalRequest, load: Loader, size: nat)
  {
    && HasSolver(req)
    && DatasetValue(req) == CStr(Cryptonite)
    && SplitValue(req).CStr?
    && PyStr.Contains(SplitChoices, SplitValue(req).s)
    && load(SplitValue(req).s) == Some(size)
  }

  /** `num_tasks` coerces to an integer strictly between 0 and `size`. */
  predicate NumTasksOk(req: EvalRequest, size: nat)
  {
    ToInt(NumTasksValue(req)).Some? && 0 < ToInt(NumTasksValue(req)).value < size
  }

  /** Every shuffle the collaborator completes orders the whole corpus. */
  ghost predicate ShufflesArePermutations(shuffle: Shuffler)
  {
    forall ds: Dataset, seed: int ::
      shuffle(ds, seed).Some? ==> Selection.IsIndexPermutation(shuffle(ds, seed).value, ds.size)
  }

  /** The outcome does not depend on what earlier requests left in the
      agent: only `self.dataset` and `self.task_indices` are written, never
      read. */
  lemma VerdictIgnoresAgentState(a: Agent, b: Agent, req: EvalRequest, load: Loader, shuffle: Shuffler)
    ensures ValidateRequest(a, req, load, shuffle).verdict == ValidateRequest(b, req, load, shuffle).verdict
  {
  }

  /** Without a `cryptic_solver` participant the request is rejected with
      the "Missing roles" message, whatever the config, the corpus or the
      shuffle, and the agent is left as it was; conversely a role rejection
      happens only then. */
  lemma MissingSolverRejected(agent: Agent, req: EvalRequest, load: Loader, shuffle: Shuffler)
    ensures !HasSolver(req) <==>
      ValidateRequest(agent, req, load, shuffle) == Validation(Reject(MissingRoles(["cryptic_solver"])), agent)
    ensures !HasSolver(req) ==>
      Reply(ValidateRequest(agent, req, load, shuffle).verdict) == Some((false, "Missing roles: {'cryptic_solver'}"))
  {
    var missing := Missing(RequiredRoles, req.participants.Keys);
    if !HasSolver(req) {
      assert missing == ["cryptic_solver"];
      MissingSolverText();
    } else {
      assert missing == [];
    }
  }

  lemma MissingSolverText()
    ensures Message(MissingRoles(["cryptic_solver"])) == "Missing roles: {'cryptic_solver'}"
  {
    assert JoinQuoted(["cryptic_solver"]) == "'cryptic_solver'";
    assert SetRepr(["cryptic_solver"]) == "{'cryptic_solver'}";
  }

  /** `required_config_keys` is empty, so the config-key check never turns
      a request down. */
  lemma ConfigKeysNeverReject(agent: Agent, req: EvalRequest, load: Loader, shuffle: Shuffler)
    ensures !ValidateRequest(agent, req, load, shuffle).verdict.Reject?
         || !ValidateRequest(agent, req, load, shuffle).verdict.reason.MissingConfigKeys?
  {
    assert Missing(RequiredConfigKeys, req.config.Keys) == [];
    if Missing(RequiredRoles, req.participants.Keys) == [] {
      SettingsReasons(agent, DatasetValue(req), SplitValue(req), NumTasksValue(req), SeedValue(req), load, shuffle);
    }
  }

  /** The checks after the role and config-key checks reject only for the
      dataset, the split, `num_tasks` or the seed. */
  lemma SettingsReasons(agent: Agent, dataset: ConfigValue, split: ConfigValue, numTasks: ConfigValue,
                        seed: ConfigValue, load: Loader, shuffle: Shuffler)
    ensures var v := ValidateSettings(agent, dataset, split, numTasks, seed, load, shuffle).verdict;
      v.Reject? ==> !v.reason.MissingRoles? && !v.reason.MissingConfigKeys?
  {
  }

  /** Past the role check, the dataset check rejects exactly the requests
      whose `dataset` is anything but the string `"cryptonite"`. */
  lemma DatasetRejection(agent: Agent, req: EvalRequest, load: Loader, shuffle: Shuffler)
    ensures ValidateRequest(agent, req, load, shuffle).verdict == Reject(UnsupportedDataset) <==>
      HasSolver(req) && DatasetValue(req) != CStr("cryptonite")
  {
    MissingSolverRejected(agent, req, load, shuffle);
    assert Missing(RequiredConfigKeys, req.config.Keys) == [];
  }

  /** A request without a `dataset` key is treated exactly like one naming
      `"cryptonite"`. */
  lemma AbsentDatasetMeansCryptonite(agent: Agent, req: EvalRequest, load: Loader, shuffle: Shuffler)
    requires "dataset" !in req.config
    ensures ValidateRequest(agent, req, load, shuffle)
         == ValidateRequest(agent, req.(config := req.config["dataset" := CStr("cryptonite")]), load, shuffle)
  {
    var req' := req.(config := req.config["dataset" := CStr("cryptonite")]);
    assert DatasetValue(req) == DatasetValue(req') == CStr(Cryptonite);
    assert SplitValue(req) == SplitValue(req');
    assert NumTasksValue(req) == NumTasksValue(req');
    assert SeedValue(req) == SeedValue(req');
    assert Missing(RequiredConfigKeys, req.config.Keys) == Missing(RequiredConfigKeys, req'.config.Keys);
  }

  /** Once roles and dataset pass, a `str` split is rejected exactly when it
      is not a substring of `"train|val|test"`, and a split of any other
      type makes the `in` test raise `TypeError`. */
  lemma SplitRejection(agent: Agent, req: EvalRequest, load: Loader, shuffle: Shuffler)
    requires HasSolver(req) && DatasetValue(req) == CStr(Cryptonite)
    ensures ValidateRequest(agent, req, load, shuffle) == Validation(Reject(UnsupportedSplit), agent) <==>
      SplitValue(req).CStr? && !(exists i :: PyStr.OccursAt(SplitValue(req).s, "train|val|test", i))
    ensures ValidateRequest(agent, req, load, shuffle) == Validation(Raise(TypeError), agent) <==>
      !SplitValue(req).CStr?
  {
    assert Missing(RequiredRoles, req.participants.Keys) == [];
    assert Missing(RequiredConfigKeys, req.config.Keys) == [];
    assert ValidateRequest(agent, req, load, shuffle)
        == ValidateSettings(agent, DatasetValue(req), SplitValue(req), NumTasksValue(req), SeedValue(req), load, shuffle);
    if SplitValue(req).CStr? {
      PyStr.ContainsIffOccurs(SplitChoices, SplitValue(req).s);
    }
  }

  /** Python's substring test lets through the three intended names, and
      also the empty string and `"|val|"`. */
  lemma SplitsAccepted()
    ensures PyStr.Contains(SplitChoices, "")
    ensures PyStr.Contains(SplitChoices, "train")
    ensures PyStr.Contains(SplitChoices, "val")
    ensures PyStr.Contains(SplitChoices, "test")
    ensures PyStr.Contains(SplitChoices, "|val|")
  {
    TrainAccepted();
    ValAccepted();
    BarredValAccepted();
    TestAccepted();
  }

  lemma TrainAccepted()
    ensures PyStr.Contains(SplitChoices, "train")
  {
    var c := SplitChoices;
    assert c[0] == 't' && c[1] == 'r' && c[2] == 'a' && c[3] == 'i' && c[4] == 'n';
    SplitAcceptedAt("train", 0);
  }

  lemma ValAccepted()
    ensures PyStr.Contains(SplitChoices, "val")
  {
    var c := SplitChoices;
    assert c[6] == 'v' && c[7] == 'a' && c[8] == 'l';
    SplitAcceptedAt("val", 6);
  }

  lemma BarredValAccepted()
    ensures PyStr.Contains(SplitChoices, "|val|")
  {
    var c := SplitChoices;
    assert c[5] == '|' && c[6] == 'v' && c[7] == 'a' && c[8] == 'l' && c[9] == '|';
    SplitAcceptedAt("|val|", 5);
  }

  lemma TestAccepted()
    ensures PyStr.Contains(SplitChoices, "test")
  {
    var c := SplitChoices;
    assert c[10] == 't' && c[11] == 'e' && c[12] == 's' && c[13] == 't';
    SplitAcceptedAt("test", 10);
  }

  lemma SplitAcceptedAt(name: string, i: nat)
    requires i + |name| <= |SplitChoices|
    requires forall k :: 0 <= k < |name| ==> SplitChoices[i + k] == name[k]
    ensures PyStr.Contains(SplitChoices, name)
  {
    assert SplitChoices[i..i + |name|] == name;
    assert PyStr.OccursAt(name, SplitChoices, i);
    PyStr.ContainsIffOccurs(SplitChoices, name);
  }

  /** The default split name `"validation"` is not a substring of
      `"train|val|test"`. */
  lemma DefaultSplitNotAccepted()
    ensures !PyStr.Contains(SplitChoices, DefaultSplit)
  {
    var c := SplitChoices;
    assert DefaultSplit[0] == 'v';
    assert c[0] == 't' && c[1] == 'r' && c[2] == 'a' && c[3] == 'i' && c[4] == 'n';
    forall k | 0 <= k <= |c| - |DefaultSplit|
      ensures c[k] != DefaultSplit[0]
    {
      if k == 0 {} else if k == 1 {} else if k == 2 {} else if k == 3 {} else {}
    }
    NotContainedByFirstChar(c, DefaultSplit);
  }

  /** A needle whose first character occurs at no possible start position
      is not contained. */
  lemma NotContainedByFirstChar(hay: string, needle: string)
    requires |needle| > 0
    requires forall k :: 0 <= k <= |hay| - |needle| ==> hay[k] != needle[0]
    ensures !PyStr.Contains(hay, needle)
  {
    PyStr.ContainsIffOccurs(hay, needle);
    forall i | PyStr.OccursAt(needle, hay, i)
      ensures false
    {
    }
  }

  /** Because the fallback split is `"validation"`, a request without a
      `split` key never gets past the split check. */
  lemma MissingSplitRejected(agent: Agent, req: EvalRequest, load: Loader, shuffle: Shuffler)
    requires HasSolver(req) && DatasetValue(req) == CStr(Cryptonite)
    requires "split" !in req.config
    ensures ValidateRequest(agent, req, load, shuffle) == Validation(Reject(UnsupportedSplit), agent)
    ensures Reply(ValidateRequest(agent, req, load, shuffle).verdict)
         == Some((false, "Only train, val, and test splits available for cryptonite"))
  {
    DefaultSplitNotAccepted();
    assert SplitValue(req) == CStr(DefaultSplit);
    assert Missing(RequiredConfigKeys, req.config.Keys) == [];
    assert Missing(RequiredRoles, req.participants.Keys) == [];
    assert ValidateRequest(agent, req, load, shuffle)
        == ValidateSettings(agent, DatasetValue(req), SplitValue(req), NumTasksValue(req), SeedValue(req), load, shuffle);
    SplitReplyText();
  }

  lemma SplitReplyText()
    ensures Reply(Reject(UnsupportedSplit)) == Some((false, "Only train, val, and test splits available for cryptonite"))
  {
  }

  /** In particular a request with an empty config is rejected. */
  lemma EmptyConfigRejected(agent: Agent, participants: map<string, Url>, load: Loader, shuffle: Shuffler)
    requires "cryptic_solver" in participants
    ensures ValidateRequest(agent, EvalRequest(participants, map[]), load, shuffle).verdict == Reject(UnsupportedSplit)
  {
    MissingSplitRejected(agent, EvalRequest(participants, map[]), load, shuffle);
  }

  /** With the corpus for the requested split loaded (`size` clues),
      `num_tasks` is rejected exactly when it does not coerce to an integer
      strictly between 0 and `size`; after the load only the `num_tasks`
      and `seed` checks can reject, and only the shuffle can raise. */
  lemma NumTasksRejection(agent: Agent, req: EvalRequest, load: Loader, shuffle: Shuffler, size: nat)
    requires ReachesNumTasks(req, load, size)
    ensures ValidateRequest(agent, req, load, shuffle).verdict == Reject(BadNumTasks(size)) <==> !NumTasksOk(req, size)
    ensures ValidateRequest(agent, req, load, shuffle).verdict.Reject? ==>
      ValidateRequest(agent, req, load, shuffle).verdict.reason in {BadNumTasks(size), BadSeed}
    ensures ValidateRequest(agent, req, load, shuffle).verdict.Raise? ==>
      ValidateRequest(agent, req, load, shuffle).verdict.error == ShuffleError
  {
    assert Missing(RequiredConfigKeys, req.config.Keys) == [];
    assert Missing(RequiredRoles, req.participants.Keys) == [];
  }

  /** A `num_tasks` that is not an integer and one that is out of range get
      the same reply. */
  lemma NumTasksOneMessage(agent: Agent, req: EvalRequest, req': EvalRequest, load: Loader, shuffle: Shuffler, size: nat, n: int)
    requires ReachesNumTasks(req, load, size) && ReachesNumTasks(req', load, size)
    requires ToInt(NumTasksValue(req)).None?
    requires ToInt(NumTasksValue(req')) == Some(n) && !(0 < n < size)
    ensures Reply(ValidateRequest(agent, req, load, shuffle).verdict)
         == Reply(ValidateRequest(agent, req', load, shuffle).verdict)
         == Some((false, "num_tasks must be an integer in [1.." + PyInt.NatToDecimal(size) + ")"))
  {
    NumTasksRejection(agent, req, load, shuffle, size);
    NumTasksRejection(agent, req', load, shuffle, size);
    assert ValidateRequest(agent, req, load, shuffle).verdict == Reject(BadNumTasks(size));
    assert ValidateRequest(agent, req', load, shuffle).verdict == Reject(BadNumTasks(size));
    BadNumTasksReply(size);
  }

  lemma BadNumTasksReply(size: nat)
    ensures Reply(Reject(BadNumTasks(size)))
         == Some((false, "num_tasks must be an integer in [1.." + PyInt.NatToDecimal(size) + ")"))
  {
  }

  /** The seed check is reached only once `num_tasks` has passed, and then
      rejects exactly a seed that does not coerce to an integer. */
  lemma SeedRejection(agent: Agent, req: EvalRequest, load: Loader, shuffle: Shuffler)
    ensures ValidateRequest(agent, req, load, shuffle).verdict == Reject(BadSeed) <==>
      exists size: nat :: ReachesNumTasks(req, load, size) && NumTasksOk(req, size) && ToInt(SeedValue(req)).None?
  {
    var r := ValidateRequest(agent, req, load, shuffle);
    if r.verdict == Reject(BadSeed) {
      MissingSolverRejected(agent, req, load, shuffle);
      assert Missing(RequiredConfigKeys, req.config.Keys) == [];
      var size := load(SplitValue(req).s).value;
      assert ReachesNumTasks(req, load, size);
    }
  }

  /** The shuffle raises exactly when every check and the load passed and
      the shuffle of the loaded corpus fails for the coerced seed; the agent
      then already holds that corpus. */
  lemma ShuffleFailure(agent: Agent, req: EvalRequest, load: Loader, shuffle: Shuffler)
    ensures ValidateRequest(agent, req, load, shuffle).verdict == Raise(ShuffleError) <==>
      exists size: nat :: && ReachesNumTasks(req, load, size) && NumTasksOk(req, size)
        && ToInt(SeedValue(req)).Some?
        && shuffle(Dataset(SplitValue(req).s, size), ToInt(SeedValue(req)).value).None?
    ensures ValidateRequest(agent, req, load, shuffle).verdict == Raise(ShuffleError) ==>
      && ValidateRequest(agent, req, load, shuffle).agent.dataset
         == Some(Dataset(SplitValue(req).s, load(SplitValue(req).s).value))
      && ValidateRequest(agent, req, load, shuffle).agent.taskIndices == agent.taskIndices
  {
    var r := ValidateRequest(agent, req, load, shuffle);
    MissingSolverRejected(agent, req, load, shuffle);
    if HasSolver(req) {
      assert Missing(RequiredConfigKeys, req.config.Keys) == [];
      assert r == ValidateSettings(agent, DatasetValue(req), SplitValue(req), NumTasksValue(req), SeedValue(req), load, shuffle);
    }
    if r.verdict == Raise(ShuffleError) {
      var size := load(SplitValue(req).s).value;
      assert ReachesNumTasks(req, load, size);
    }
  }

  /** The declarative acceptance condition: every check passes and the
      shuffle completes. */
  ghost predicate Acceptable(req: EvalRequest, load: Loader, shuffle: Shuffler)
  {
    && (forall role :: role in RequiredRoles ==> role in req.participants)
    && (forall key :: key in RequiredConfigKeys ==> key in req.config)
    && DatasetValue(req) == CStr("cryptonite")
    && SplitValue(req).CStr?
    && (exists i :: PyStr.OccursAt(SplitValue(req).s, "train|val|test", i))
    && load(SplitValue(req).s).Some?
    && NumTasksOk(req, load(SplitValue(req).s).value)
    && ToInt(SeedValue(req)).Some?
    && shuffle(Dataset(SplitValue(req).s, load(SplitValue(req).s).value), ToInt(SeedValue(req)).value).Some?
  }

  /** A request is accepted exactly when every check passes; the reply is
      then `(True, "ok")` and the selection is the first `num_tasks`
      positions of the shuffle for the loaded corpus and the seed. */
  lemma AcceptIffAcceptable(agent: Agent, req: EvalRequest, load: Loader, shuffle: Shuffler)
    ensures ValidateRequest(agent, req, load, shuffle).verdict.Accept? <==> Acceptable(req, load, shuffle)
    ensures Acceptable(req, load, shuffle) ==>
      var split := SplitValue(req).s;
      var ds := Dataset(split, load(split).value);
      && ValidateRequest(agent, req, load, shuffle).verdict
         == Accept(Selection.Take(shuffle(ds, ToInt(SeedValue(req)).value).value, ToInt(NumTasksValue(req)).value))
      && ValidateRequest(agent, req, load, shuffle).agent == Agent(Some(ds), Some(ValidateRequest(agent, req, load, shuffle).verdict.taskIndices))
      && Reply(ValidateRequest(agent, req, load, shuffle).verdict) == Some((true, "ok"))
  {
    var r := ValidateRequest(agent, req, load, shuffle);
    MissingSolverRejected(agent, req, load, shuffle);
    RequirementsMet(req);
    if HasSolver(req) {
      assert Missing(RequiredConfigKeys, req.config.Keys) == [];
      assert r == ValidateSettings(agent, DatasetValue(req), SplitValue(req), NumTasksValue(req), SeedValue(req), load, shuffle);
      SettingsAcceptIff(agent, DatasetValue(req), SplitValue(req), NumTasksValue(req), SeedValue(req), load, shuffle);
      AcceptableWithSolver(req, load, shuffle);
    }
  }

  /** With the solver present, `Acceptable` is `SettingsOk` on the values
      the request reads. */
  lemma AcceptableWithSolver(req: EvalRequest, load: Loader, shuffle: Shuffler)
    requires HasSolver(req)
    ensures Acceptable(req, load, shuffle)
        <==> SettingsOk(DatasetValue(req), SplitValue(req), NumTasksValue(req), SeedValue(req), load, shuffle)
  {
    RequirementsMet(req);
    if SplitValue(req).CStr? {
      PyStr.ContainsIffOccurs(SplitChoices, SplitValue(req).s);
    }
  }

  /** Every check after the role and config-key checks passes, and the
      shuffle completes. */
  predicate SettingsOk(dataset: ConfigValue, split: ConfigValue, numTasks: ConfigValue,
                       seed: ConfigValue, load: Loader, shuffle: Shuffler)
  {
    && dataset == CStr(Cryptonite)
    && split.CStr?
    && PyStr.Contains(SplitChoices, split.s)
    && load(split.s).Some?
    && ToInt(numTasks).Some? && 0 < ToInt(numTasks).value < load(split.s).value
    && ToInt(seed).Some?
    && shuffle(Dataset(split.s, load(split.s).value), ToInt(seed).value).Some?
  }

  /** The role and config-key requirements hold exactly when the solver
      takes part. */
  lemma RequirementsMet(req: EvalRequest)
    ensures (&& (forall role :: role in RequiredRoles ==> role in req.participants)
             && (forall key :: key in RequiredConfigKeys ==> key in req.config)) <==> HasSolver(req)
  {
    assert RequiredRoles == ["cryptic_solver"];
  }

  /** `AcceptIffAcceptable` once roles and config keys have passed. */
  lemma SettingsAcceptIff(agent: Agent, dataset: ConfigValue, split: ConfigValue, numTasks: ConfigValue,
                          seed: ConfigValue, load: Loader, shuffle: Shuffler)
    ensures ValidateSettings(agent, dataset, split, numTasks, seed, load, shuffle).verdict.Accept? <==>
      SettingsOk(dataset, split, numTasks, seed, load, shuffle)
    ensures ValidateSettings(agent, dataset, split, numTasks, seed, load, shuffle).verdict.Accept? ==>
      var ds := Dataset(split.s, load(split.s).value);
      var r := ValidateSettings(agent, dataset, split, numTasks, seed, load, shuffle);
      && r.verdict == Accept(Selection.Take(shuffle(ds, ToInt(seed).value).value, ToInt(numTasks).value))
      && r.agent == Agent(Some(ds), Some(r.verdict.taskIndices))
  {
    if dataset == CStr(Cryptonite) && split.CStr? && PyStr.Contains(SplitChoices, split.s) && load(split.s).Some? {
      var ds := Dataset(split.s, load(split.s).value);
      var v := SelectTasks(ds, numTasks, seed, shuffle);
      assert v.Accept? <==>
        (ToInt(numTasks).Some? && 0 < ToInt(numTasks).value < ds.size && ToInt(seed).Some?
         && shuffle(ds, ToInt(seed).value).Some?);
    }
  }

  /** With a shuffle that orders the whole corpus, an accepted request
      selects exactly `num_tasks` distinct positions of the loaded corpus. */
  lemma AcceptedSelection(agent: Agent, req: EvalRequest, load: Loader, shuffle: Shuffler)
    requires ShufflesArePermutations(shuffle)
    requires ValidateRequest(agent, req, load, shuffle).verdict.Accept?
    ensures var r := ValidateRequest(agent, req, load, shuffle);
      && r.agent.dataset.Some?
      && |r.verdict.taskIndices| == ToInt(NumTasksValue(req)).value
      && Selection.InRange(r.verdict.taskIndices, r.agent.dataset.value.size)
      && Selection.Distinct(r.verdict.taskIndices)
  {
    AcceptIffAcceptable(agent, req, load, shuffle);
    var split := SplitValue(req).s;
    var ds := Dataset(split, load(split).value);
    var seed := ToInt(SeedValue(req)).value;
    assert Selection.IsIndexPermutation(shuffle(ds, seed).value, ds.size);
    Selection.TakeOfPermutation(shuffle(ds, seed).value, ds.size, ToInt(NumTasksValue(req)).value);
  }

  /** Two requests that differ only in `num_tasks`, both accepted: the
      smaller selection is a prefix of the larger one, because the shuffle
      sees only the corpus and the seed. */
  lemma SelectionPrefixMonotone(agent: Agent, agent': Agent, req: EvalRequest, req': EvalRequest,
                                load: Loader, shuffle: Shuffler, k: int, k': int)
    requires req'.participants == req.participants
    requires req'.config - {"num_tasks"} == req.config - {"num_tasks"}
    requires ValidateRequest(agent, req, load, shuffle).verdict.Accept?
    requires ValidateRequest(agent', req', load, shuffle).verdict.Accept?
    requires ToInt(NumTasksValue(req)) == Some(k) && ToInt(NumTasksValue(req')) == Some(k') && k <= k'
    ensures ValidateRequest(agent, req, load, shuffle).verdict.taskIndices
         <= ValidateRequest(agent', req', load, shuffle).verdict.taskIndices
  {
    AcceptIffAcceptable(agent, req, load, shuffle);
    AcceptIffAcceptable(agent', req', load, shuffle);
    SameSettingsButNumTasks(req, req');
    var split := SplitValue(req).s;
    var ds := Dataset(split, load(split).value);
    var s := shuffle(ds, ToInt(SeedValue(req)).value).value;
    Selection.TakeMonotone(s, k, k');
  }

  /** Requests whose configs differ at most in `num_tasks` read the same
      split and seed. */
  lemma SameSettingsButNumTasks(req: EvalRequest, req': EvalRequest)
    requires req'.config - {"num_tasks"} == req.config - {"num_tasks"}
    ensures SplitValue(req) == SplitValue(req') && SeedValue(req) == SeedValue(req')
  {
    var rest := req.config - {"num_tasks"};
    assert "split" in req.config <==> "split" in rest;
    assert "split" in req'.config <==> "split" in rest;
    assert "seed" in req.config <==> "seed" in rest;
    assert "seed" in req'.config <==> "seed" in rest;
  }

  /** The example request of the agent card (src/server.py:35-47) is
      accepted whenever the `val` corpus has more than two clues and the
      seed-42 shuffle completes; a failing shuffle is the only exception
      that can escape. */
  lemma DocumentedRequestAccepted(agent: Agent, load: Loader, shuffle: Shuffler, size: nat)
    requires load("val") == Some(size) && size > 2
    ensures ValidateRequest(agent,
      EvalRequest(map["cryptic_solver" := "http://localhost:9019"],
                  map["dataset" := CStr("cryptonite"), "split" := CStr("val"), "num_tasks" := CInt(2), "seed" := CInt(42)]),
      load, shuffle).verdict
      == match shuffle(Dataset("val", size), 42)
         case Some(order) => Accept(Selection.Take(order, 2))
         case None => Raise(ShuffleError)
  {
    var req := EvalRequest(map["cryptic_solver" := "http://localhost:9019"],
                  map["dataset" := CStr("cryptonite"), "split" := CStr("val"), "num_tasks" := CInt(2), "seed" := CInt(42)]);
    SplitsAccepted();
    assert Missing(RequiredRoles, req.participants.Keys) == [];
    assert Missing(RequiredConfigKeys, req.config.Keys) == [];
  }

  /** Which check a rejection comes from. */
  datatype Check = RolesCheck | ConfigKeysCheck | DatasetCheck | SplitCheck | NumTasksCheck | SeedCheck

  function CheckOf(reason: Reason): (c: Check)
  {
    match reason
    case MissingRoles(_) => RolesCheck
    case MissingConfigKeys(_) => ConfigKeysCheck
    case UnsupportedDataset => DatasetCheck
    case UnsupportedSplit => SplitCheck
    case BadNumTasks(_) => NumTasksCheck
    case BadSeed => SeedCheck
  }

  /** Characters that tell the six messages apart: the last one, and for
      the two "Missing" messages the ninth. */
  lemma MessageMarks(r: Reason)
    ensures |Message(r)| > 8
    ensures var m := Message(r);
      match r
      case MissingRoles(_) => m[8] == 'r' && m[|m| - 1] == '}'
      case MissingConfigKeys(_) => m[8] == 'c' && m[|m| - 1] == '}'
      case UnsupportedDataset => m[|m| - 1] == 't'
      case UnsupportedSplit => m[|m| - 1] == 'e'
      case BadNumTasks(_) => m[|m| - 1] == ')'
      case BadSeed => m[|m| - 1] == 'r'
  {
  }

  /** The reply text tells which check failed, and for `num_tasks` also the
      corpus length. */
  lemma MessageIdentifiesCheck(a: Reason, b: Reason)
    ensures Message(a) == Message(b) ==> CheckOf(a) == CheckOf(b)
    ensures a.BadNumTasks? && b.BadNumTasks? ==> (Message(a) == Message(b) <==> a == b)
  {
    MessageMarks(a);
    MessageMarks(b);
    if a.BadNumTasks? && b.BadNumTasks? {
      NumTasksMessageInjective(a.corpusSize, b.corpusSize);
    }
  }

  /** Two `num_tasks` texts are equal only for equal corpus lengths: the
      length each quotes reads back under `int()`. */
  lemma NumTasksMessageInjective(m: nat, n: nat)
    ensures Message(BadNumTasks(m)) == Message(BadNumTasks(n)) <==> m == n
  {
    var a := Message(BadNumTasks(m));
    var b := Message(BadNumTasks(n));
    if a == b {
      assert a[|NumTasksPrefix|..|a| - 1] == b[|NumTasksPrefix|..|b| - 1];
    }
  }
}

=== FILE: pyint.dfy ===
/** Python's `int()` applied to a `str` in the default base 10, and the
    decimal rendering Python uses when an `int` is formatted into a message.

    Accepted numerals: optional surrounding whitespace, an optional `+` or
    `-`, then ASCII digits in which a single underscore may separate two
    digits (`"1_000"`). Anything else makes `int()` raise `ValueError`,
    modelled as `None`. */
module PyInt {
  import opened Wrappers
  import PyStr

  predicate IsDigit(c: char)
  {
    '0' <= c <= '9'
  }

  function DigitValue(c: char): (d: nat)
    requires IsDigit(c)
    ensures d < 10
  {
    c as int - '0' as int
  }

  function DigitChar(d: nat): (c: char)
    requires d < 10
    ensures IsDigit(c) && DigitValue(c) == d
  {
    (d + '0' as int) as char
  }

  /** Position `i` of `s` may stand in a numeral: a digit, or an underscore
      immediately followed by a digit. */
  predicate GroupedAt(s: string, i: int)
    requires 0 <= i < |s|
  {
    IsDigit(s[i]) || (s[i] == '_' && i + 1 < |s| && IsDigit(s[i + 1]))
  }

  /** The unsigned part of a numeral: starts with a digit, and every
      underscore sits between two digits. */
  predicate IsDigitRun(s: string)
  {
    |s| > 0 && IsDigit(s[0]) && forall i :: 0 <= i < |s| ==> GroupedAt(s, i)
  }

  /** The number the digits of `s` spell, underscores (and any other
      non-digit) skipped. */
  function DigitsValue(s: string): (v: nat)
  {
    if |s| == 0 then 0
    else if IsDigit(s[|s| - 1]) then 10 * DigitsValue(s[..|s| - 1]) + DigitValue(s[|s| - 1])
    else DigitsValue(s[..|s| - 1])
  }

  predicate IsSign(c: char)
  {
    c == '+' || c == '-'
  }

  /** `int(s)` for a `str` `s`; `None` where Python raises `ValueError`.
      A blank string is never a numeral. */
  function IntOfString(s: string): (r: Option<int>)
    ensures (forall k :: 0 <= k < |s| ==> PyStr.IsSpace(s[k])) ==> r.None?
  {
    IntOfStripped(PyStr.Strip(s))
  }

  /** The numeral grammar once surrounding whitespace is gone: an optional
      sign, then digits and underscores, starting and ending with a digit;
      the value is negative only under a minus sign. */
  function IntOfStripped(t: string): (r: Option<int>)
    ensures r.Some? ==> |t| > 0 && IsDigit(t[|t| - 1])
    ensures r.Some? ==> IsDigit(t[0]) || (IsSign(t[0]) && |t| > 1 && IsDigit(t[1]))
    ensures r.Some? ==> forall k :: 0 < k < |t| ==> IsDigit(t[k]) || t[k] == '_'
    ensures r.Some? && r.value < 0 ==> t[0] == '-'
    ensures |t| > 0 && (forall k :: 0 <= k < |t| ==> IsDigit(t[k])) ==> r == Some(DigitsValue(t))
  {
    AllDigitsIsRun(t);
    if |t| > 0 && IsSign(t[0]) then
      if IsDigitRun(t[1..]) then
        SignedRunShape(t);
        var v: int := DigitsValue(t[1..]);
        Some(if t[0] == '-' then -v else v)
      else None
    else if IsDigitRun(t) then
      RunShape(t);
      Some(DigitsValue(t))
    else None
  }

  /** A sign followed by an unsigned numeral: digits and underscores after
      the sign, the last a digit. */
  lemma SignedRunShape(t: string)
    requires |t| > 0 && IsDigitRun(t[1..])
    ensures |t| > 1 && IsDigit(t[1]) && IsDigit(t[|t| - 1])
    ensures forall k :: 0 < k < |t| ==> IsDigit(t[k]) || t[k] == '_'
  {
    var u := t[1..];
    assert GroupedAt(u, |u| - 1);
    forall k | 0 < k < |t|
      ensures IsDigit(t[k]) || t[k] == '_'
    {
      assert GroupedAt(u, k - 1) && u[k - 1] == t[k];
    }
  }

  /** `str(n)` for a non-negative `int`: no sign, no leading zero. */
  function NatToDecimal(n: nat): (s: string)
    ensures |s| > 0
    ensures forall i :: 0 <= i < |s| ==> IsDigit(s[i])
    ensures s[0] == '0' ==> n == 0 && s == "0"
  {
    if n < 10 then [DigitChar(n)] else NatToDecimal(n / 10) + [DigitChar(n % 10)]
  }

  /** `str(i)` for any `int`. */
  function IntToDecimal(i: int): (s: string)
    ensures |s| > 0 && (i < 0 <==> s[0] == '-')
    ensures i >= 0 ==> s == NatToDecimal(i)
  {
    if i < 0 then "-" + NatToDecimal(-i) else NatToDecimal(i)
  }

  lemma {:induction false} DigitsValueOfDecimal(n: nat)
    ensures DigitsValue(NatToDecimal(n)) == n
    decreases n
  {
    var s := NatToDecimal(n);
    if n >= 10 {
      DigitsValueOfDecimal(n / 10);
      assert s[..|s| - 1] == NatToDecimal(n / 10);
    }
  }

  /** A digit is neither a sign nor whitespace. */
  lemma DigitIsPlain(c: char)
    requires IsDigit(c)
    ensures !IsSign(c) && !PyStr.IsSpace(c)
  {
  }

  /** A string of digits is an unsigned numeral. */
  lemma AllDigitsIsRun(d: string)
    ensures (|d| > 0 && forall k :: 0 <= k < |d| ==> IsDigit(d[k])) ==> IsDigitRun(d)
  {
    if |d| > 0 && forall k :: 0 <= k < |d| ==> IsDigit(d[k]) {
      assert forall k :: 0 <= k < |d| ==> GroupedAt(d, k);
    }
  }

  /** An unsigned numeral holds only digits and underscores and ends with
      a digit. */
  lemma RunShape(t: string)
    requires IsDigitRun(t)
    ensures IsDigit(t[|t| - 1])
    ensures forall k :: 0 <= k < |t| ==> IsDigit(t[k]) || t[k] == '_'
  {
    assert GroupedAt(t, |t| - 1);
    forall k | 0 <= k < |t|
      ensures IsDigit(t[k]) || t[k] == '_'
    {
      assert GroupedAt(t, k);
    }
  }

  /** `int(str(n)) == n`. */
  lemma {:induction false} DecimalRoundTrip(n: nat)
    ensures IntOfString(NatToDecimal(n)) == Some(n)
  {
    var s := NatToDecimal(n);
    DigitIsPlain(s[0]);
    DigitIsPlain(s[|s| - 1]);
    PyStr.StripUnpadded(s);
    AllDigitsIsRun(s);
    DigitsValueOfDecimal(n);
  }

  /** `int(str(i)) == i` for negative numbers too. */
  lemma {:induction false} SignedDecimalRoundTrip(i: int)
    ensures IntOfString(IntToDecimal(i)) == Some(i)
  {
    if i >= 0 {
      DecimalRoundTrip(i);
    } else {
      var d := NatToDecimal(-i);
      var s := IntToDecimal(i);
      assert s == "-" + d;
      assert s[1..] == d;
      assert s[|s| - 1] == d[|d| - 1];
      DigitIsPlain(d[|d| - 1]);
      PyStr.StripUnpadded(s);
      AllDigitsIsRun(d);
      DigitsValueOfDecimal(-i);
      assert IntOfStripped(s) == Some(i);
    }
  }

  /** Rendering is one-to-one, so a message that embeds a number
      determines the number. */
  lemma {:induction false} DecimalInjective(m: nat, n: nat)
    ensures NatToDecimal(m) == NatToDecimal(n) <==> m == n
  {
    if NatToDecimal(m) == NatToDecimal(n) {
      DecimalRoundTrip(m);
      DecimalRoundTrip(n);
    }
  }

  /** `int()` ignores whitespace around a numeral. */
  lemma {:induction false} PaddingIgnored(pre: string, s: string, post: string)
    requires forall i :: 0 <= i < |pre| ==> PyStr.IsSpace(pre[i])
    requires forall i :: 0 <= i < |post| ==> PyStr.IsSpace(post[i])
    requires s == [] || (!PyStr.IsSpace(s[0]) && !PyStr.IsSpace(s[|s| - 1]))
    requires s != [] || post == []
    ensures IntOfString(pre + s + post) == IntOfString(s)
  {
    PyStr.StripPadded(pre, s, post);
    PyStr.StripPadded([], s, []);
    assert [] + s + [] == s;
    assert PyStr.Strip(pre + s + post) == PyStr.Strip(s);
  }

  /** A CPython-style scanner for `int(s)`: skip leading and trailing
      whitespace, read an optional sign, then accumulate digits left to
      right, accepting an underscore only between two digits. It agrees with
      the grammar above on every string. */
  method ParseInt(s: string) returns (r: Option<int>)
    ensures r == IntOfString(s)
  {
    var t := StripSpaces(s);
    var negative := false;
    var start := 0;
    if |t| > 0 && IsSign(t[0]) {
      negative := t[0] == '-';
      start := 1;
    }
    var body := t[start..];
    var value := ScanDigits(body);
    if value.None? {
      return None;
    }
    var v: int := value.value;
    r := Some(if negative then -v else v);
  }

  /** The whitespace-skipping phase of `ParseInt`. */
  method StripSpaces(s: string) returns (t: string)
    ensures t == PyStr.Strip(s)
  {
    var lo := SkipLeading(s);
    var u := s[lo..];
    var hi := SkipTrailing(u);
    t := u[..hi];
  }

  method SkipLeading(s: string) returns (lo: nat)
    ensures lo <= |s| && s[lo..] == PyStr.TrimStart(s)
  {
    lo := 0;
    while lo < |s| && PyStr.IsSpace(s[lo])
      invariant lo <= |s|
      invariant PyStr.TrimStart(s[lo..]) == PyStr.TrimStart(s)
    {
      assert s[lo..][1..] == s[lo + 1..];
      lo := lo + 1;
    }
  }

  method SkipTrailing(s: string) returns (hi: nat)
    ensures hi <= |s| && s[..hi] == PyStr.TrimEnd(s)
  {
    hi := |s|;
    assert s[..hi] == s;
    while hi > 0 && PyStr.IsSpace(s[hi - 1])
      invariant hi <= |s|
      invariant PyStr.TrimEnd(s[..hi]) == PyStr.TrimEnd(s)
    {
      assert s[..hi][..hi - 1] == s[..hi - 1];
      hi := hi - 1;
    }
  }

  /** The digit phase of `ParseInt`: the value of an unsigned numeral, or
      `None` at the first character that breaks the grammar. It mirrors the
      digit loop of CPython's `PyLong_FromString`, which accepts an
      underscore only when a digit follows it. */
  method ScanDigits(body: string) returns (r: Option<nat>)
    ensures r.Some? <==> IsDigitRun(body)
    ensures r.Some? ==> r.value == DigitsValue(body)
  {
    if |body| == 0 || !IsDigit(body[0]) {
      return None;
    }
    var acc := 0;
    var j := 0;
    while j < |body|
      invariant 0 <= j <= |body|
      invariant forall k :: 0 <= k < j ==> GroupedAt(body, k)
      invariant acc == DigitsValue(body[..j])
    {
      assert body[..j + 1][..j] == body[..j];
      if IsDigit(body[j]) {
        acc := 10 * acc + DigitValue(body[j]);
      } else if !(body[j] == '_' && j + 1 < |body| && IsDigit(body[j + 1])) {
        assert !GroupedAt(body, j);
        return None;
      }
      j := j + 1;
    }
    assert body[..j] == body;
    r := Some(acc);
  }
}

=== FILE: pystr.dfy ===
/** The pieces of Python's `str` semantics that the request validator relies
    on: the `in` operator between two strings (substring containment) and the
    whitespace that `int()` ignores around a numeral. */
module PyStr {

  /** `needle` occurs in `hay` starting at position `i`. */
  predicate OccursAt(needle: string, hay: string, i: int)
  {
    0 <= i && i + |needle| <= |hay| && hay[i..i + |needle|] == needle
  }

  /** Python's `needle in hay` for two `str` values, as a left-to-right scan
      that tries every start position of `hay` in turn. */
  function Contains(hay: string, needle: string): (r: bool)
    ensures needle == [] ==> r
    ensures r ==> |needle| <= |hay|
    ensures |needle| == |hay| ==> (r <==> needle == hay)
    decreases |hay|
  {
    if |needle| > |hay| then false
    else hay[..|needle|] == needle || Contains(hay[1..], needle)
  }

  /** The scan agrees with the declarative reading of `in`: some position of
      `hay` starts a copy of `needle`. */
  lemma {:induction false} ContainsIffOccurs(hay: string, needle: string)
    ensures Contains(hay, needle) <==> exists i :: OccursAt(needle, hay, i)
    decreases |hay|
  {
    if |needle| > |hay| {
      forall i ensures !OccursAt(needle, hay, i) { }
    } else if hay[..|needle|] == needle {
      assert OccursAt(needle, hay, 0);
    } else {
      ContainsIffOccurs(hay[1..], needle);
      if Contains(hay[1..], needle) {
        var j :| OccursAt(needle, hay[1..], j);
        assert hay[j + 1..j + 1 + |needle|] == hay[1..][j..j + |needle|];
        assert OccursAt(needle, hay, j + 1);
      } else {
        forall i | OccursAt(needle, hay, i)
          ensures false
        {
          assert i != 0;
          assert hay[1..][i - 1..i - 1 + |needle|] == hay[i..i + |needle|];
          assert OccursAt(needle, hay[1..], i - 1);
        }
      }
    }
  }

  /** The whitespace characters CPython skips around an ASCII numeral in
      `int()`: space, tab, line feed, vertical tab, form feed, carriage return. */
  predicate IsSpace(c: char)
  {
    c == ' ' || c == '\t' || c == '\n' || c == '\U{000B}' || c == '\U{000C}' || c == '\r'
  }

  /** `s` without its leading whitespace. */
  function TrimStart(s: string): (r: string)
    ensures |r| <= |s| && r == s[|s| - |r|..]
    ensures r == [] || !IsSpace(r[0])
    ensures forall i :: 0 <= i < |s| - |r| ==> IsSpace(s[i])
  {
    if |s| > 0 && IsSpace(s[0]) then TrimStart(s[1..]) else s
  }

  /** `s` without its trailing whitespace. */
  function TrimEnd(s: string): (r: string)
    ensures |r| <= |s| && r == s[..|r|]
    ensures r == [] || !IsSpace(r[|r| - 1])
    ensures forall i :: |r| <= i < |s| ==> IsSpace(s[i])
  {
    if |s| > 0 && IsSpace(s[|s| - 1]) then TrimEnd(s[..|s| - 1]) else s
  }

  /** Python's `s.strip()` restricted to the whitespace of `IsSpace`. */
  function Strip(s: string): (r: string)
    ensures r == [] || (!IsSpace(r[0]) && !IsSpace(r[|r| - 1]))
    ensures |r| <= |s|
  {
    TrimEnd(TrimStart(s))
  }

  /** Whitespace added around a string is exactly what `Strip` removes. */
  lemma {:induction false} StripPadded(pre: string, s: string, post: string)
    requires forall i :: 0 <= i < |pre| ==> IsSpace(pre[i])
    requires forall i :: 0 <= i < |post| ==> IsSpace(post[i])
    requires s == [] || (!IsSpace(s[0]) && !IsSpace(s[|s| - 1]))
    requires s != [] || post == []
    ensures Strip(pre + s + post) == s
  {
    assert pre + s + post == pre + (s + post);
    assert s + post == [] || !IsSpace((s + post)[0]);
    TrimStartPadded(pre, s + post);
    TrimEndPadded(s, post);
  }

  /** A string that neither starts nor ends with whitespace is its own
      `strip()`. */
  lemma StripUnpadded(s: string)
    requires |s| > 0 && !IsSpace(s[0]) && !IsSpace(s[|s| - 1])
    ensures Strip(s) == s
  {
    StripPadded([], s, []);
    assert [] + s + [] == s;
  }

  lemma {:induction false} TrimStartPadded(pre: string, s: string)
    requires forall i :: 0 <= i < |pre| ==> IsSpace(pre[i])
    requires s == [] || !IsSpace(s[0])
    ensures TrimStart(pre + s) == s
    decreases |pre|
  {
    if pre != [] {
      assert (pre + s)[1..] == pre[1..] + s;
      TrimStartPadded(pre[1..], s);
    }
  }

  lemma {:induction false} TrimEndPadded(s: string, post: string)
    requires forall i :: 0 <= i < |post| ==> IsSpace(post[i])
    requires s == [] || !IsSpace(s[|s| - 1])
    ensures TrimEnd(s + post) == s
    decreases |post|
  {
    if post != [] {
      assert (s + post)[..|s + post| - 1] == s + post[..|post| - 1];
      TrimEndPadded(s, post[..|post| - 1]);
    } else {
      assert s + post == s;
    }
  }
}

=== FILE: request.dfy ===
/** The evaluation request a green agent receives: participant roles mapped
    to endpoint URLs, and a free-form `config` mapping whose values are
    whatever the JSON payload held. */
module Request {
  import opened Wrappers
  import PyInt

  /** A `config` value as Python holds it after the JSON payload is parsed. */
  datatype ConfigValue =
    | CInt(i: int)
    | CBool(b: bool)
    | CFloat(x: real)     // a finite float
    | CNonFiniteFloat     // inf, -inf or nan
    | CStr(s: string)
    | CNull
    | CCompound           // a list or an object

  type Url = string

  datatype EvalRequest = EvalRequest(participants: map<string, Url>, config: map<string, ConfigValue>)

  /** `config.get(key, default)`. */
  function Get(config: map<string, ConfigValue>, key: string, default: ConfigValue): ConfigValue
  {
    if key in config then config[key] else default
  }

  /** Python's `int(x)` for a finite float: truncation toward zero. */
  function Truncate(x: real): (r: int)
    ensures x >= 0.0 ==> r as real <= x < r as real + 1.0
    ensures x < 0.0 ==> r as real - 1.0 < x <= r as real
  {
    if x >= 0.0 then x.Floor else -((-x).Floor)
  }

  /** Python's `int(v)`; `None` where it raises (`ValueError` for a bad
      numeral or nan, `OverflowError` for an infinity, `TypeError` for
      `None`, a list or a dict). */
  function ToInt(v: ConfigValue): (r: Option<int>)
    ensures v.CInt? ==> r == Some(v.i)
    ensures v.CStr? ==> r == PyInt.IntOfString(v.s)
    ensures v.CBool? ==> r.Some? && r.value == (if v.b then 1 else 0)
    ensures v.CFloat? ==> r == Some(Truncate(v.x))
    ensures v.CNull? || v.CCompound? || v.CNonFiniteFloat? ==> r.None?
  {
    match v
    case CInt(i) => Some(i)
    case CBool(b) => Some(if b then 1 else 0)
    case CFloat(x) => Some(Truncate(x))
    case CNonFiniteFloat => None
    case CStr(s) => PyInt.IntOfString(s)
    case CNull => None
    case CCompound => None
  }

  /** A count given as a JSON number, as a float with no fraction, or as
      its decimal string coerces to the same integer: `"num_tasks": 2`,
      `2.0` and `"2"` are one request. */
  lemma NumberAndNumeralAgree(i: int)
    ensures ToInt(CStr(PyInt.IntToDecimal(i))) == ToInt(CInt(i)) == ToInt(CFloat(i as real)) == Some(i)
  {
    PyInt.SignedDecimalRoundTrip(i);
  }
}

=== FILE: selection.dfy ===
/** The task selection: a prefix of a seed-determined ordering of corpus
    positions. */
module Selection {

  /** No position appears twice. */
  predicate Distinct(s: seq<nat>)
  {
    forall i, j :: 0 <= i < j < |s| ==> s[i] != s[j]
  }

  /** Every entry is a position of a corpus of `n` items. */
  predicate InRange(s: seq<nat>, n: nat)
  {
    forall i :: 0 <= i < |s| ==> s[i] < n
  }

  /** `s` orders all of `0 .. n-1`, each exactly once. */
  predicate IsIndexPermutation(s: seq<nat>, n: nat)
  {
    |s| == n && InRange(s, n) && Distinct(s)
  }

  /** Python's `s[:n]`: the first `n` entries, all of them when `s` is
      shorter, and for a negative `n` all but the last `-n`. */
  function Take(s: seq<nat>, n: int): (r: seq<nat>)
    ensures r <= s
    ensures 0 <= n <= |s| ==> |r| == n
    ensures n > |s| ==> r == s
    ensures n < 0 ==> |r| == if |s| + n < 0 then 0 else |s| + n
  {
    var stop := if n < 0 then (if |s| + n < 0 then 0 else |s| + n)
                else if n > |s| then |s| else n;
    s[..stop]
  }

  /** Taking more never reorders what was already taken. */
  lemma TakeMonotone(s: seq<nat>, k: nat, k': nat)
    requires k <= k'
    ensures Take(s, k) <= Take(s, k')
  {
  }

  /** A prefix of a permutation of `0 .. n-1` of length `k <= n` has exactly
      `k` distinct positions, all below `n`. */
  lemma TakeOfPermutation(s: seq<nat>, n: nat, k: nat)
    requires IsIndexPermutation(s, n)
    requires k <= n
    ensures |Take(s, k)| == k
    ensures InRange(Take(s, k), n)
    ensures Distinct(Take(s, k))
  {
    var r := Take(s, k);
    assert forall i :: 0 <= i < |r| ==> r[i] == s[i];
  }
}

=== FILE: validator.dfy ===
/** `Agent.validate_request`: decides whether an evaluation request is
    acceptable and, when it is, fixes the corpus positions of the clues that
    will be posed.

    The checks run in a fixed order and the first that fails decides the
    outcome: participant roles, config keys, dataset name, split name,
    `num_tasks`, `seed`. The corpus loader and the seeded shuffle are
    collaborators outside the model and arrive as parameters. */
module Validator {
  import opened Wrappers
  import PyStr
  import PyInt
  import opened Request
  import Selection

  /** `Agent.required_roles`. */
  const RequiredRoles: seq<string> := ["cryptic_solver"]
  /** `Agent.required_config_keys`: empty, every key has a fallback. */
  const RequiredConfigKeys: seq<string> := []

  const Cryptonite := "cryptonite"
  /** The fallback for a missing `split` key. */
  const DefaultSplit := "validation"
  /** The string the split name is tested against with Python's `in`. */
  const SplitChoices := "train|val|test"
  const DefaultNumTasks := CStr("10")
  const DefaultSeed := CStr("42")

  /** A loaded benchmark corpus; only its split and its length matter here. */
  datatype Dataset = Dataset(split: string, size: nat)

  /** The agent attributes `validate_request` assigns: `self.dataset` and
      `self.task_indices` (`None` until first assigned). */
  datatype Agent = Agent(dataset: Option<Dataset>, taskIndices: Option<seq<nat>>)

  /** Why a request was turned down; `Message` gives the text. */
  datatype Reason =
    | MissingRoles(roles: seq<string>)
    | MissingConfigKeys(keys: seq<string>)
    | UnsupportedDataset
    | UnsupportedSplit
    | BadNumTasks(corpusSize: nat)
    | BadSeed

  /** Exceptions that escape `validate_request` instead of becoming a
      `(False, reason)` reply. */
  datatype Exception =
    | TypeError          // `split not in '...'` with a non-`str` split
    | CorpusLoadError    // raised by the corpus loader
    | ShuffleError       // raised by the seeded shuffle, after `self.dataset` is assigned

  datatype Verdict =
    | Accept(taskIndices: seq<nat>)
    | Reject(reason: Reason)
    | Raise(error: Exception)

  datatype Validation = Validation(verdict: Verdict, agent: Agent)

  /** `load_cryptonite_dataset(split)`: the corpus length, or `None` when
      loading raises. */
  type Loader = string -> Option<nat>
  /** `get_shuffled_idx(dataset, seed)`: an ordering of corpus positions,
      or `None` when the shuffle raises. */
  type Shuffler = (Dataset, int) -> Option<seq<nat>>

  /** `set(required) - present`, listed in the order of `required`. */
  function Missing(required: seq<string>, present: set<string>): (m: seq<string>)
    ensures forall x :: x in m <==> x in required && x !in present
    ensures |m| <= |required|
  {
    if required == [] then []
    else (if required[0] in present then [] else [required[0]]) + Missing(required[1..], present)
  }

  function DatasetValue(req: EvalRequest): (v: ConfigValue)
  {
    Get(req.config, "dataset", CStr(Cryptonite))
  }

  function SplitValue(req: EvalRequest): (v: ConfigValue)
  {
    Get(req.config, "split", CStr(DefaultSplit))
  }

  function NumTasksValue(req: EvalRequest): (v: ConfigValue)
  {
    Get(req.config, "num_tasks", DefaultNumTasks)
  }

  function SeedValue(req: EvalRequest): (v: ConfigValue)
  {
    Get(req.config, "seed", DefaultSeed)
  }

  /** `validate_request(request)` run on an agent in state `agent`. */
  function ValidateRequest(agent: Agent, req: EvalRequest, load: Loader, shuffle: Shuffler): (r: Validation)
    // self.task_indices is assigned exactly when the request is accepted
    ensures r.verdict.Accept? ==> r.agent.taskIndices == Some(r.verdict.taskIndices)
    ensures !r.verdict.Accept? ==> r.agent.taskIndices == agent.taskIndices
    // self.dataset changes only to a corpus the loader produced for the requested split
    ensures r.agent.dataset != agent.dataset ==>
      && r.agent.dataset.Some?
      && SplitValue(req) == CStr(r.agent.dataset.value.split)
      && load(r.agent.dataset.value.split) == Some(r.agent.dataset.value.size)
    // an exception raised before the corpus is loaded leaves the agent untouched
    ensures r.verdict.Raise? && r.verdict.error != ShuffleError ==> r.agent == agent
    // a failing shuffle escapes with self.dataset already replaced by the loaded corpus
    ensures r.verdict == Raise(ShuffleError) ==>
      && SplitValue(req).CStr? && load(SplitValue(req).s).Some?
      && r.agent.dataset == Some(Dataset(SplitValue(req).s, load(SplitValue(req).s).value))
    // a seed rejection comes after the load, so self.dataset is already the loaded corpus
    ensures r.verdict == Reject(BadSeed) ==>
      && SplitValue(req).CStr? && load(SplitValue(req).s).Some?
      && r.agent.dataset == Some(Dataset(SplitValue(req).s, load(SplitValue(req).s).value))
    // a rejection by num_tasks names the length of the corpus just loaded
    ensures r.verdict.Reject? && r.verdict.reason.BadNumTasks? ==>
      && SplitValue(req).CStr? && load(SplitValue(req).s) == Some(r.verdict.reason.corpusSize)
      && r.agent.dataset == Some(Dataset(SplitValue(req).s, r.verdict.reason.corpusSize))
  {
    var missingRoles := Missing(RequiredRoles, req.participants.Keys);
    var missingKeys := Missing(RequiredConfigKeys, req.config.Keys);
    if missingRoles != [] then Validation(Reject(MissingRoles(missingRoles)), agent)
    else if missingKeys != [] then Validation(Reject(MissingConfigKeys(missingKeys)), agent)
    else ValidateSettings(agent, DatasetValue(req), SplitValue(req), NumTasksValue(req), SeedValue(req), load, shuffle)
  }

  /** The checks after the role and key checks, on the four config values
      they read (defaults already filled in): dataset name, split name,
      corpus load, then `num_tasks` and `seed`. */
  function ValidateSettings(agent: Agent, dataset: ConfigValue, split: ConfigValue, numTasks: ConfigValue,
                            seed: ConfigValue, load: Loader, shuffle: Shuffler): (r: Validation)
    ensures dataset != CStr(Cryptonite) ==> r == Validation(Reject(UnsupportedDataset), agent)
    ensures r.verdict.Accept? ==> r.agent.taskIndices == Some(r.verdict.taskIndices)
    ensures !r.verdict.Accept? ==> r.agent.taskIndices == agent.taskIndices
    ensures r.agent.dataset != agent.dataset ==>
      && r.agent.dataset.Some?
      && split == CStr(r.agent.dataset.value.split)
      && load(r.agent.dataset.value.split) == Some(r.agent.dataset.value.size)
    ensures r.verdict.Raise? && r.verdict.error != ShuffleError ==> r.agent == agent
    ensures r.verdict == Raise(ShuffleError) ==>
      split.CStr? && load(split.s).Some? && r.agent.dataset == Some(Dataset(split.s, load(split.s).value))
    ensures r.verdict == Reject(BadSeed) ==>
      split.CStr? && load(split.s).Some? && r.agent.dataset == Some(Dataset(split.s, load(split.s).value))
    ensures r.verdict.Reject? && r.verdict.reason.BadNumTasks? ==>
      && split.CStr? && load(split.s) == Some(r.verdict.reason.corpusSize)
      && r.agent.dataset == Some(Dataset(split.s, r.verdict.reason.corpusSize))
  {
    if dataset != CStr(Cryptonite) then Validation(Reject(UnsupportedDataset), agent)
    else if !split.CStr? then Validation(Raise(TypeError), agent)
    else if !PyStr.Contains(SplitChoices, split.s) then Validation(Reject(UnsupportedSplit), agent)
    else
      match load(split.s)
      case None => Validation(Raise(CorpusLoadError), agent)
      case Some(size) =>
        var ds := Dataset(split.s, size);
        var r := SelectTasks(ds, numTasks, seed, shuffle);
        Validation(r, Agent(Some(ds), if r.Accept? then Some(r.taskIndices) else agent.taskIndices))
  }

  /** The `num_tasks` and `seed` checks on a loaded corpus, and the
      selection they lead to. */
  function SelectTasks(ds: Dataset, numTasks: ConfigValue, seed: ConfigValue, shuffle: Shuffler): (v: Verdict)
    ensures v.Raise? ==> v.error == ShuffleError
    ensures v.Reject? ==> v.reason in {BadNumTasks(ds.size), BadSeed}
    ensures v == Reject(BadNumTasks(ds.size)) <==>
      ToInt(numTasks).None? || !(0 < ToInt(numTasks).value < ds.size)
    ensures v == Reject(BadSeed) <==>
      ToInt(numTasks).Some? && 0 < ToInt(numTasks).value < ds.size && ToInt(seed).None?
    ensures v == Raise(ShuffleError) <==>
      ToInt(numTasks).Some? && 0 < ToInt(numTasks).value < ds.size && ToInt(seed).Some?
      && shuffle(ds, ToInt(seed).value).None?
    ensures v.Accept? ==>
      && ToInt(numTasks).Some? && ToInt(seed).Some? && shuffle(ds, ToInt(seed).value).Some?
      && v.taskIndices == Selection.Take(shuffle(ds, ToInt(seed).value).value, ToInt(numTasks).value)
  {
    match ToInt(numTasks)
    case None => Reject(BadNumTasks(ds.size))
    case Some(n) =>
      if !(0 < n < ds.size) then Reject(BadNumTasks(ds.size))
      else
        match ToInt(seed)
        case None => Reject(BadSeed)
        case Some(s) =>
          match shuffle(ds, s)
          case None => Raise(ShuffleError)
          case Some(order) => Accept(Selection.Take(order, n))
  }

  /** Python's `repr` of a set of plain names: `{'a', 'b'}`. */
  function SetRepr(names: seq<string>): (r: string)
  {
    "{" + JoinQuoted(names) + "}"
  }

  function JoinQuoted(names: seq<string>): (r: string)
  {
    if names == [] then ""
    else if |names| == 1 then "'" + names[0] + "'"
    else "'" + names[0] + "', " + JoinQuoted(names[1..])
  }

  /** The reason string of a `(False, reason)` reply. The `num_tasks` text
      ends with the corpus length and a closing parenthesis, and the length
      it quotes reads back as that number under `int()`. */
  function Message(reason: Reason): (m: string)
    ensures reason.BadNumTasks? ==>
      |m| > |NumTasksPrefix| && m[|m| - 1] == ')'
      && PyInt.IntOfString(m[|NumTasksPrefix|..|m| - 1]) == Some(reason.corpusSize)
  {
    match reason
    case MissingRoles(roles) => "Missing roles: " + SetRepr(roles)
    case MissingConfigKeys(keys) => "Missing config keys: " + SetRepr(keys)
    case UnsupportedDataset => "Only cryptonite available at present"
    case UnsupportedSplit => "Only train, val, and test splits available for cryptonite"
    case BadNumTasks(size) =>
      var digits := PyInt.NatToDecimal(size);
      PyInt.DecimalRoundTrip(size);
      var m := NumTasksPrefix + digits + ")";
      assert m[|NumTasksPrefix|..|m| - 1] == digits;
      m
    case BadSeed => "seed must be an integer"
  }

  /** The text of the `num_tasks` message before the corpus length. */
  const NumTasksPrefix := "num_tasks must be an integer in [1.."

  /** The `(ok, message)` pair `validate_request` returns; `None` when it
      raises instead of returning. */
  function Reply(v: Verdict): (r: Option<(bool, string)>)
    ensures r.None? <==> v.Raise?
    ensures r.Some? ==> (r.value.0 <==> v.Accept?)
    ensures v.Reject? ==> r == Some((false, Message(v.reason)))
  {
    match v
    case Accept(_) => Some((true, "ok"))
    case Reject(reason) => Some((false, Message(reason)))
    case Raise(_) => None
  }
}

=== FILE: wrappers.dfy ===
/** The optional value used wherever a Python operation may produce nothing:
    a conversion that raises, a loader that fails, an attribute not yet
    assigned. */
module Wrappers {

  datatype Option<+T> = None | Some(value: T)
}
